=== FILE: README.md ===
# goenum in Dafny

goenum generates Go enumeration types from plain-text descriptions. It first
finds the package of the Go files in the working directory and reads the
template `goenum/goenum.template`. Then it processes every `goenum/*.goenum`
spec file:

- The type name is the spec file's name without its extension.
- The output file is `enum<lower-cased type>.go`.
- Each line of the spec file becomes one enum member (name, value, first
  flag).
- The members, the package, the type, the member count and the last
  member's name are bound in a map and rendered through the template.

This project models that pipeline (`main.go`) and proves what each step
promises.

Modules:

- `Wrappers`: `Option`, `Result` and the errors the program reports.
- `Text`: the parts of Go's `strings` package that the program relies on:
  - `Split` on a single character, `TrimSpace` and `Fields` with Go's
    `unicode.IsSpace` set;
  - `HasPrefix`, `TrimSuffix`, and an ASCII `ToLower`.
- `Names`: `filepath.Base`, `filepath.Ext`, the type name and the output
  file name.
- `EnumSpec`: parsing a spec file into members (`readEnumListFromFile`).
- `PackageName`: finding the package name (`readPackageNameFromGoFile`,
  `getPackageName`).
- `Context`: the map handed to the template, built key by key, and the
  record it encodes.
- `Generator`: `processEnumDescriptionFile` and `main`. The template
  engine and the file system enter as parameters.

Behaviour of the code that the model keeps deliberately:

- A spec line is cut at every single space (`strings.Split(line, " ")`),
  not at white space in general:
  - two spaces in a row give an empty value;
  - a tab does not separate the name from the value.
- Blank lines are not skipped. They yield members with an empty name.
- The package clause is recognised by a plain prefix test:
  - an indented clause is missed;
  - `packages x` counts;
  - a comment line starting with `package` before the real clause wins.
- An empty spec file does not produce a logged "empty member list" error.
  `enums[len(enums)-1]` at main.go:111 panics, which ends the whole run:
  - outputs already written stay;
  - later spec files are never processed.

  The model follows the code here: `FileOutcome` yields `Panicked` and
  `RunFiles` stops.
- Output names are not disjoint. Spec files whose names differ only in
  letter case produce the same output file, and the later one overwrites
  the earlier one (`OutputNameClash`).

## Model

| member | source | states |
|---|---|---|
| Text.IsSpace | main.go:79 | white space is Go's `unicode.IsSpace` set: tab to carriage return, space, U+0085, U+00A0, U+1680, U+2000 to U+200A, U+2028, U+2029, U+202F, U+205F and U+3000 |
| Text.IsSpaceAscii | main.go:79 | among ASCII characters exactly tab, newline, vertical tab, form feed, carriage return and space are white space |
| Text.TrimSpace | main.go:139 | the result is no longer than the input and starts and ends with a non-space character (or is empty) |
| Text.TrimSpaceSlice | main.go:139 | the result is a slice `s[i..j]` of the input with only white space before `i` and after `j` |
| Text.TrimSpaceEnds | main.go:139 | trimming gives "" exactly when the string is all white space, and leaves unchanged a string that neither starts nor ends with white space |
| Text.IndexOfFirst | main.go:138 | the index found is the first occurrence: no earlier character matches, and it equals the length exactly when the character is absent |
| Text.Split | main.go:138 | `strings.Split` always yields at least one piece, so `fields[0]` at main.go:139 is always defined |
| Text.SplitFirstPieces | main.go:138-144 | the first piece runs to the first separator; a line without separator is one piece; otherwise the second piece runs to the next separator |
| Text.JoinSplit | main.go:138 | joining the pieces with the separator gives the line back (nothing is lost by splitting) |
| Text.SplitJoin | main.go:138 | splitting a join of separator-free pieces gives the pieces back |
| Text.IndexOfSeparator | main.go:138 | in `a + [c] + b` with no `c` in `a`, the first `c` is at `|a|` |
| Text.Fields | main.go:79-80 | every field is non-empty and holds no white space, and a line has no fields exactly when it is all white space |
| Text.FieldsFromWord | main.go:79 | a word preceded only by white space is the next field |
| Text.HasPrefix | main.go:78 | `strings.HasPrefix`: the prefix is no longer than the string and equals its first characters |
| Text.HasPrefixAppend | main.go:78 | a prefix followed by anything has that prefix, and a string with a prefix is that prefix followed by the rest |
| Text.TrimSuffix | main.go:90 | with a matching suffix the result followed by the suffix is the input; otherwise the input is unchanged |
| Text.ToLower | main.go:95 | same length, each character mapped through `LowerChar` (which lowers `A`-`Z` and keeps everything else), so no upper-case ASCII letter remains |
| Text.ToLowerIdempotent | main.go:95 | lower-casing twice is lower-casing once |
| Names.Base | main.go:38 | the base name is never empty, a path without `/` is its own base name, and only the root is a base name with a `/` |
| Names.BaseOfPath | main.go:38 | the base name of `dir/name` is `name` |
| Names.Ext | main.go:90 | the extension is a suffix of the path and starts with `.` when non-empty |
| Names.ExtShape | main.go:90 | the extension holds no further `.` and no `/`; for a path without `/` it is empty exactly when the path has no `.` |
| Names.ExtOfDotted | main.go:90 | the extension of `stem.suffix` is `.suffix` |
| Names.TypeName | main.go:88-91 | the type name followed by the extension is the file name; a name without `.` is its own type name |
| Names.TypeNameOfDotted | main.go:88-91 | the type name of `stem.suffix` is `stem`, whatever dots the stem holds |
| Names.AlignmentTypeName | main.go:89 | `goenum/Alignment.goenum` has type name `Alignment` |
| Names.OutputFileName | main.go:93-96 | the name is seven characters longer than the type, starts with `enum`, ends with `.go`, and holds the lower-cased type in between |
| Names.OutputFileNameCollision | main.go:93-96 | two types share an output file exactly when their lower-cased names are equal |
| Names.OutputFileNameIgnoresCase | main.go:95 | the output file of a type does not depend on the case of its name |
| Names.OutputOfCapitalised | main.go:95 | a name capitalised only in its first letter is lower-cased in that letter alone |
| Names.AlignmentOutputFileName | main.go:94 | type `Alignment` is written to `enumalignment.go` |
| EnumSpec.LineName | main.go:138-139 | a member's name neither starts nor ends with white space |
| EnumSpec.LineValue | main.go:138-146 | a member's value neither starts nor ends with white space |
| EnumSpec.LineNameBeforeSpace | main.go:138-139 | a member's name is the trimmed text before the line's first space |
| EnumSpec.LineValueBetweenSpaces | main.go:138-144 | a member's value is the trimmed text between the first space and the next, and "" when the line has no space |
| EnumSpec.PlainLine | main.go:138-144 | a single-word line gives that word as name and "" as value |
| EnumSpec.FieldsBetween | main.go:138-144 | a line whose first space is at `i` and next at `j` gives the trimmed text before `i` as name and between `i` and `j` as value |
| EnumSpec.ExtraFieldsIgnored | main.go:138-144 | whatever follows a line's second space does not change its name or value |
| EnumSpec.DoubleSpace | main.go:138-141 | `A  B` gives name `A` and an empty value |
| EnumSpec.NoSeparator | main.go:138-144 | a line without a space is all name, trimmed, and has no value |
| EnumSpec.TabInLine | main.go:138-144 | `A<tab>B` is all name: a tab does not separate fields |
| EnumSpec.BlankLine | main.go:138-146 | a blank line, or one holding only white space, gives a member with an empty name and value |
| EnumSpec.ParseFrom | main.go:137-152 | one member per line |
| EnumSpec.EnumList | main.go:137-152 | a file gives one member per line, and its first member carries the first line's name and value and is marked first |
| EnumSpec.EnumListMembers | main.go:137-152 | member `i` carries the name and value of line `i`, and only member 0 is marked first |
| EnumSpec.ThreeBareMembers | main.go:137-152 | three single-word lines give three members without value, the first marked first |
| EnumSpec.AlignmentMembers | main.go:137-152 | `LEFT`, `CENTER`, `RIGHT` give `{LEFT,"",true}`, `{CENTER,"",false}`, `{RIGHT,"",false}` |
| EnumSpec.ReadEnumListFromFile | main.go:124-161 | an unreadable file gives the read error; otherwise the members of the file's lines, in order |
| PackageName.PackageClause | main.go:78-82 | a line declares a package only if it starts with `package`, and the name it declares is a non-empty word without white space |
| PackageName.PackageClauseOf | main.go:78-82 | `package<word> <name> ...` declares `name` |
| PackageName.BareKeyword | main.go:78-81 | a line whose only field starts with `package` (the keyword itself or a longer word such as `packagex`), followed by white space only, declares nothing |
| PackageName.IndentedClause | main.go:78 | a clause indented by white space declares nothing |
| PackageName.BareKeywordLine | main.go:80 | the line `package` declares nothing |
| PackageName.IndentedLine | main.go:78 | the line ` package main` declares nothing |
| PackageName.LongerKeyword | main.go:78-81 | `packages main` declares `main` |
| PackageName.CommentLine | main.go:78-81 | a comment line `package docs follow` declares `docs` |
| PackageName.SecondLineDeclares | main.go:76-84 | when the first line declares nothing and the second declares a name, the file declares that name |
| PackageName.CommentBeforeClause | main.go:76-84 | a comment line starting with `package` before the real clause decides the package |
| PackageName.DeclaredPackage | main.go:76-85 | a file's package is "" or a word without white space, and a non-empty one is what one of its lines declares |
| PackageName.DeclaredPackageFirst | main.go:76-85 | a file gives "" exactly when no line declares a package, and otherwise the package of its first declaring line |
| PackageName.ReadPackageNameFromGoFile | main.go:68-86 | an unopenable file gives ""; otherwise the scan returns the file's declared package |
| PackageName.ResolvePackage | main.go:58-65 | resolution fails only with "Package name not found", and a resolved package is non-empty and declared by one of the Go files |
| PackageName.ResolvePackageFirst | main.go:58-65 | resolution fails with "Package name not found" exactly when no file names a package, and otherwise returns the package of the first file that does |
| PackageName.GetPackageName | main.go:52-66 | the loop over the files returns the resolved package or the error |
| Context.BuildContext | main.go:105-111 | fails with the empty-list error exactly when there are no members; otherwise the count is the number of members and the last value is the last member's name |
| Context.ToMap | main.go:105-111 | the map binds exactly the five keys the template uses |
| Context.FromMap | main.go:105-111 | a context is read back only from a map holding all five keys |
| Context.MapRoundTrip | main.go:105-111 | every field of the context can be read back from the map under its key |
| Context.FillBindings | main.go:105-111 | filling the map key by key gives the context's map, which decodes to a consistent context; no members gives the empty-list error |
| Context.ContextOfSpecFile | main.go:105-111 | for a non-empty spec file the count is its number of lines, the last value is the name on its last line, and only member 0 is first |
| Context.AlignmentContext | main.go:105-111 | the Alignment example binds count 3 and last value `RIGHT` |
| Generator.OutputNameOf | main.go:38-40 | the output file of a spec file path starts with `enum` and ends with `.go` |
| Generator.SpecFileTypeName | main.go:38-39 | the type name of `<dir>/<name>.goenum` is `name` |
| Generator.OutputNameClash | main.go:38-40 | spec files whose names differ only in letter case lead to the same output file |
| Generator.FileOutcome | main.go:98-122 | an empty spec file is exactly the panicking case; an unreadable one logs the read error; for a non-empty file the bindings exist, a render failure logs its message, a successful render is written under the derived name when the target is writable and logs the write error when it is not; a written output always has that name, a writable target and the rendered text |
| Generator.OutcomeOf | main.go:37-40 | a spec file's outcome panics exactly when the file is empty, and a written output is named after the file's path |
| Generator.ProcessEnumDescriptionFile | main.go:98-122 | the step-by-step processing of one file has the outcome `FileOutcome` describes |
| Generator.Generate | main.go:27-43 | the run aborts on a missing package or template, and otherwise processes the spec files in order as `RunFiles` describes |
| Generator.RunFiles | main.go:37-42 | without a panic every spec file is accounted for by one write or one log entry |
| Generator.Run | main.go:27-43 | a run aborts only with "Package name not found" or the template error, and always aborts when the template cannot be read |
| Generator.RunFilesPanics | main.go:37-42 | the run panics exactly when a spec file is readable and empty |
| Generator.RunFilesRecords | main.go:37-42 | every spec file reached without an earlier panic has its output appended to the writes, or its error to the log, after those of the files before it, so a logged failure does not stop later files |
| Generator.RunFilesWrites | main.go:37-42 | every output written comes from a spec file, is named after its path and holds its rendering |
| Generator.RunFilesExtends | main.go:37-42 | more spec files only append writes and log entries, and after a panic nothing changes |
| Generator.PanicAfterWrite | main.go:111 | a write followed by a panic records only the write, whatever follows |
| Generator.EmptyFileEndsRun | main.go:37-42 | of three spec files with the middle one empty, only the first is written and the third is never processed |
| Generator.RunAborts | main.go:28-32 | the run stops with "Package name not found" exactly when no Go file names a package, and with the template error exactly when a package is found but the template cannot be read |

## Left out

- File-system I/O is left out: opening, reading and writing files, and
  the buffered writer's flush. A file's lines are given as `Option<seq<string>>`, with
  `None` for a file that cannot be opened or read.
  - A scanner error partway through a spec file is folded into `None`. The
    source returns an error in that case too.
  - Whether an output can be written is the `canWrite` parameter.
  - fileutils.go is not part of this model.
- The template engine (`processMustache`, main.go:164-178) is left out. It
  is a parameter: a function from template text and bindings to rendered
  text or an error message. Parsing the template and rendering it are one
  step.
- `filepath.Glob` is left out. The Go files and the spec files are given as
  sequences in listing order. A listing error cannot occur for the fixed,
  well-formed patterns used.
- The line length limit of `bufio.Scanner` (64 KiB per line) is left out.
  So is its splitting of text into lines: a file is its sequence of lines.
- `check`, `os.Exit` and `log.Println` are left out. Fatal errors become
  `Aborted(error)`, logged errors entries of `Progress.log`, and a panic
  `Panicked`.
- Text.ToLower: maps every character through `LowerChar`, which lowers
  the ASCII letters `A`-`Z` only and keeps every other character. Go's
  `strings.ToLower` lower-cases every Unicode letter.
- Names.Base: uses `/` as the only separator and has no Windows volume
  names. The data folder itself is built with `os.PathSeparator`.
- Generator.Generate: only the result of the run is modelled. Printing
  and the process exit code are not.

=== FILE: context.dfy ===
/**
 * The data handed to the template for one spec file (main.go:105-111): the
 * package, the type name, the members, their count and the name of the last
 * member. An empty member list makes main.go:111 index out of range.
 */
module Context {
  import opened Wrappers
  import opened EnumSpec

  /** The keys main.go:107-111 bind, under the names the template uses. */
  const PackageKey := "Package"
  const EnumTypeKey := "EnumType"
  const EnumValuesKey := "EnumValues"
  const EnumCountKey := "EnumCount"
  const EnumLastValueKey := "EnumLastValue"

  /** A value bound in the template's map. */
  datatype Binding =
    | Str(s: string)
    | Members(enums: seq<Enum>)
    | Count(n: int)

  /** The rendering context as a record. */
  datatype RenderContext = RenderContext(
    Package: string,
    EnumType: string,
    EnumValues: seq<Enum>,
    EnumCount: int,
    EnumLastValue: string)

  /** What main.go:105-111 guarantees of every context it builds. */
  predicate Consistent(ctx: RenderContext) {
    && ctx.EnumValues != []
    && ctx.EnumCount == |ctx.EnumValues|
    && ctx.EnumLastValue == ctx.EnumValues[|ctx.EnumValues| - 1].Name
  }

  /**
   * The context for a spec file's members: an error when there are none,
   * otherwise a consistent context carrying the package, type and members.
   */
  function BuildContext(pkg: string, typeName: string, enums: seq<Enum>): (r: Result<RenderContext, Error>)
    ensures r.Failure? <==> enums == []
    ensures r.Failure? ==> r.error == EmptyMemberList
    ensures r.Success? ==> Consistent(r.value)
    ensures r.Success? ==>
      r.value.Package == pkg && r.value.EnumType == typeName && r.value.EnumValues == enums
  {
    if enums == [] then Failure(EmptyMemberList)
    else Success(RenderContext(pkg, typeName, enums, |enums|, enums[|enums| - 1].Name))
  }

  /** The map a context is handed to the template as. */
  function ToMap(ctx: RenderContext): (m: map<string, Binding>)
    ensures m.Keys == {PackageKey, EnumTypeKey, EnumValuesKey, EnumCountKey, EnumLastValueKey}
  {
    map[PackageKey := Str(ctx.Package),
        EnumTypeKey := Str(ctx.EnumType),
        EnumValuesKey := Members(ctx.EnumValues),
        EnumCountKey := Count(ctx.EnumCount),
        EnumLastValueKey := Str(ctx.EnumLastValue)]
  }

  /** Reads a context back from a map, when every key holds a value of the right kind. */
  function FromMap(m: map<string, Binding>): (r: Option<RenderContext>)
    ensures r.Some? ==>
      PackageKey in m && EnumTypeKey in m && EnumValuesKey in m && EnumCountKey in m && EnumLastValueKey in m
  {
    if PackageKey in m && EnumTypeKey in m && EnumValuesKey in m && EnumCountKey in m && EnumLastValueKey in m
       && m[PackageKey].Str? && m[EnumTypeKey].Str? && m[EnumValuesKey].Members?
       && m[EnumCountKey].Count? && m[EnumLastValueKey].Str?
    then Some(RenderContext(m[PackageKey].s, m[EnumTypeKey].s, m[EnumValuesKey].enums,
                            m[EnumCountKey].n, m[EnumLastValueKey].s))
    else None
  }

  /** The map loses nothing: every field of the context can be read back under its key. */
  lemma MapRoundTrip(ctx: RenderContext)
    ensures FromMap(ToMap(ctx)) == Some(ctx)
  {
    var m := ToMap(ctx);
    assert m[PackageKey] == Str(ctx.Package);
    assert m[EnumTypeKey] == Str(ctx.EnumType);
    assert m[EnumValuesKey] == Members(ctx.EnumValues);
    assert m[EnumCountKey] == Count(ctx.EnumCount);
    assert m[EnumLastValueKey] == Str(ctx.EnumLastValue);
  }

  /**
   * The map built for `enums`: `Failure(EmptyMemberList)` when there are no
   * members, otherwise the context's map.
   */
  function BindingsFor(pkg: string, typeName: string, enums: seq<Enum>): Result<map<string, Binding>, Error> {
    match BuildContext(pkg, typeName, enums)
    case Failure(e) => Failure(e)
    case Success(ctx) => Success(ToMap(ctx))
  }

  /**
   * main.go:105-111: fills the map one key at a time. With no members the
   * last assignment indexes out of range, reported as `EmptyMemberList`.
   */
  method FillBindings(pkg: string, typeName: string, enums: seq<Enum>) returns (r: Result<map<string, Binding>, Error>)
    ensures r == BindingsFor(pkg, typeName, enums)
    ensures r.Success? ==> FromMap(r.value).Some? && Consistent(FromMap(r.value).value)
  {
    var m: map<string, Binding> := map[];
    m := m[PackageKey := Str(pkg)];
    m := m[EnumTypeKey := Str(typeName)];
    m := m[EnumValuesKey := Members(enums)];
    m := m[EnumCountKey := Count(|enums|)];
    if |enums| == 0 {
      return Failure(EmptyMemberList);
    }
    m := m[EnumLastValueKey := Str(enums[|enums| - 1].Name)];
    var ctx := RenderContext(pkg, typeName, enums, |enums|, enums[|enums| - 1].Name);
    assert m == ToMap(ctx);
    MapRoundTrip(ctx);
    return Success(m);
  }

  /**
   * For a non-empty spec file the context counts its lines and takes the
   * name on its last line; only the first member is marked first.
   */
  lemma ContextOfSpecFile(pkg: string, typeName: string, lines: seq<string>)
    requires lines != []
    ensures BuildContext(pkg, typeName, EnumList(lines)).Success?
    ensures var ctx := BuildContext(pkg, typeName, EnumList(lines)).value;
      ctx.EnumCount == |lines| &&
      ctx.EnumLastValue == LineName(lines[|lines| - 1]) &&
      forall i :: 0 <= i < |lines| ==> (ctx.EnumValues[i].IsFirst <==> i == 0)
  {
    EnumListMembers(lines);
  }

  /** The members of the example `Alignment.goenum`: one bare name per line. */
  lemma AlignmentContext()
    ensures var r := BuildContext("main", "Alignment", EnumList(["LEFT", "CENTER", "RIGHT"]));
      r == Success(RenderContext("main", "Alignment",
        [Enum("LEFT", "", true), Enum("CENTER", "", false), Enum("RIGHT", "", false)],
        3, "RIGHT"))
  {
    AlignmentMembers();
  }
}

=== FILE: enumspec.dfy ===
/**
 * Parsing a `.goenum` specification file (main.go:124-161): one enum member
 * per line, in file order. A line is cut at each single space character (not
 * at white space in general); the first piece, trimmed, is the member's name,
 * the second, trimmed, its value, and further pieces are ignored. Blank
 * lines are not skipped. Only the first member is marked `IsFirst`.
 */
module EnumSpec {
  import opened Wrappers
  import opened Text

  /** `Enum` (main.go:21-25), field names as the template sees them. */
  datatype Enum = Enum(Name: string, Value: string, IsFirst: bool)

  /** The name on a line: the trimmed first piece when the line is cut at single spaces. */
  function LineName(line: string): (r: string)
    ensures r == [] || (!IsSpace(r[0]) && !IsSpace(r[|r| - 1]))
  {
    TrimSpace(Split(line, ' ')[0])
  }

  /** The value on a line: the trimmed second piece, or "" when there is none. */
  function LineValue(line: string): (r: string)
    ensures r == [] || (!IsSpace(r[0]) && !IsSpace(r[|r| - 1]))
  {
    var fields := Split(line, ' ');
    if |fields| > 1 then TrimSpace(fields[1]) else ""
  }

  /** The name is the trimmed text before the line's first space (all of it when there is none). */
  lemma LineNameBeforeSpace(line: string)
    ensures LineName(line) == TrimSpace(line[..IndexOf(line, ' ')])
  {
    SplitFirstPieces(line, ' ');
  }

  /**
   * The value is the trimmed text between the line's first space and the
   * space after it (or the line's end), and "" when the line has no space.
   */
  lemma LineValueBetweenSpaces(line: string)
    ensures ' ' !in line ==> LineValue(line) == ""
    ensures IndexOf(line, ' ') < |line| ==>
      var i := IndexOf(line, ' ');
      LineValue(line) == TrimSpace(line[i + 1..IndexFrom(line, ' ', i + 1)])
  {
    IndexOfFirst(line, ' ');
    SplitFirstPieces(line, ' ');
  }

  /** A line holding a single word names a member with no value. */
  lemma PlainLine(word: string)
    requires NoSpace(word)
    ensures LineName(word) == word && LineValue(word) == ""
  {
    assert ' ' !in word by {
      assert forall k :: 0 <= k < |word| ==> word[k] != ' ';
    }
    IndexOfFirst(word, ' ');
    assert word[..|word|] == word;
    LineNameBeforeSpace(word);
    TrimSpaceEnds(word);
    LineValueBetweenSpaces(word);
  }

  /**
   * The members for `lines`, the first of them carrying `first`: the state
   * of the source's `first` flag at the start of `lines`.
   */
  function ParseFrom(lines: seq<string>, first: bool): (enums: seq<Enum>)
    ensures |enums| == |lines|
  {
    if lines == [] then []
    else [Enum(LineName(lines[0]), LineValue(lines[0]), first)] + ParseFrom(lines[1..], false)
  }

  /** The members a spec file's lines describe; the flag starts set. */
  function EnumList(lines: seq<string>): (enums: seq<Enum>)
    ensures |enums| == |lines|
    ensures lines != [] ==> enums[0] == Enum(LineName(lines[0]), LineValue(lines[0]), true)
  {
    ParseFrom(lines, true)
  }

  /**
   * Member `i` comes from line `i`: its name and value are that line's, and
   * it is marked first exactly when it is the first member and the flag was set.
   */
  lemma {:induction false} ParseFromAt(lines: seq<string>, first: bool, i: nat)
    requires i < |lines|
    ensures ParseFrom(lines, first)[i] ==
      Enum(LineName(lines[i]), LineValue(lines[i]), first && i == 0)
  {
    if i > 0 {
      ParseFromAt(lines[1..], false, i - 1);
    }
  }

  /** Parsing one more line appends one member; the flag is set only for the very first. */
  lemma {:induction false} ParseFromSnoc(lines: seq<string>, line: string, first: bool)
    ensures ParseFrom(lines + [line], first) ==
      ParseFrom(lines, first) + [Enum(LineName(line), LineValue(line), first && lines == [])]
  {
    if lines != [] {
      assert (lines + [line])[1..] == lines[1..] + [line];
      ParseFromSnoc(lines[1..], line, false);
    }
  }

  /** Parsing one line further extends the members of the lines before it by one. */
  lemma ParseFromPrefix(lines: seq<string>, i: nat)
    requires i < |lines|
    ensures ParseFrom(lines[..i + 1], true) ==
      ParseFrom(lines[..i], true) + [Enum(LineName(lines[i]), LineValue(lines[i]), i == 0)]
  {
    assert lines[..i + 1] == lines[..i] + [lines[i]];
    ParseFromSnoc(lines[..i], lines[i], true);
  }

  /** Each line of a spec file yields exactly one member, in order; only the first is marked. */
  lemma EnumListMembers(lines: seq<string>)
    ensures |EnumList(lines)| == |lines|
    ensures forall i :: 0 <= i < |lines| ==>
      EnumList(lines)[i] == Enum(LineName(lines[i]), LineValue(lines[i]), i == 0)
  {
    forall i | 0 <= i < |lines|
      ensures EnumList(lines)[i] == Enum(LineName(lines[i]), LineValue(lines[i]), i == 0)
    {
      ParseFromAt(lines, true, i);
    }
  }

  /** A file of three single-word lines lists three members with no values. */
  lemma ThreeBareMembers(a: string, b: string, c: string)
    requires NoSpace(a) && NoSpace(b) && NoSpace(c)
    ensures EnumList([a, b, c]) == [Enum(a, "", true), Enum(b, "", false), Enum(c, "", false)]
  {
    PlainLine(a);
    PlainLine(b);
    PlainLine(c);
    ParseFromAt([a, b, c], true, 0);
    ParseFromAt([a, b, c], true, 1);
    ParseFromAt([a, b, c], true, 2);
  }

  /** The example `Alignment.goenum`: one bare name per line. */
  lemma AlignmentMembers()
    ensures EnumList(["LEFT", "CENTER", "RIGHT"]) ==
      [Enum("LEFT", "", true), Enum("CENTER", "", false), Enum("RIGHT", "", false)]
  {
    ThreeBareMembers("LEFT", "CENTER", "RIGHT");
  }

  /**
   * `readEnumListFromFile`: `None` stands for a file that cannot be opened
   * or read, which is reported as an error; otherwise each line becomes a
   * member, in order.
   */
  method ReadEnumListFromFile(file: Option<seq<string>>) returns (r: Result<seq<Enum>, Error>)
    ensures file.None? ==> r == Failure(ReadEnums)
    ensures file.Some? ==> r == Success(EnumList(file.value))
  {
    if file.None? {
      return Failure(ReadEnums);
    }
    var lines := file.value;
    var enums: seq<Enum> := [];
    var first := true;
    var i := 0;
    while i < |lines|
      invariant 0 <= i <= |lines|
      invariant first <==> i == 0
      invariant enums == ParseFrom(lines[..i], true)
    {
      var fields := Split(lines[i], ' ');
      var f1 := TrimSpace(fields[0]);
      var f2 := if |fields| > 1 then TrimSpace(fields[1]) else "";
      assert f1 == LineName(lines[i]) && f2 == LineValue(lines[i]);
      ParseFromPrefix(lines, i);
      enums := enums + [Enum(f1, f2, first)];
      if first {
        first := false;
      }
      i := i + 1;
    }
    assert lines[..i] == lines;
    return Success(enums);
  }

  /**
   * A line whose first space is at `i` and whose next space is at `j` (or
   * which ends at `j`) names the member with the text before `i` and gives
   * it the text between `i` and `j` as value.
   */
  lemma FieldsBetween(line: string, i: nat, j: nat)
    requires i < j <= |line|
    requires line[i] == ' ' && ' ' !in line[..i] && ' ' !in line[i + 1..j]
    requires j < |line| ==> line[j] == ' '
    ensures LineName(line) == TrimSpace(line[..i])
    ensures LineValue(line) == TrimSpace(line[i + 1..j])
  {
    assert forall k :: 0 <= k < i ==> line[k] == line[..i][k];
    IndexFromAt(line, ' ', 0, i);
    assert forall k :: i + 1 <= k < j ==> line[k] == line[i + 1..j][k - i - 1];
    IndexFromAt(line, ' ', i + 1, j);
    LineNameBeforeSpace(line);
    LineValueBetweenSpaces(line);
  }

  /** Everything after a line's second space is ignored. */
  lemma ExtraFieldsIgnored(name: string, value: string, tail: string)
    requires ' ' !in name && ' ' !in value
    ensures LineName(name + " " + value + " " + tail) == TrimSpace(name)
    ensures LineValue(name + " " + value + " " + tail) == TrimSpace(value)
  {
    var line := name + " " + value + " " + tail;
    var i, j := |name|, |name| + 1 + |value|;
    assert line[..i] == name;
    assert line[i + 1..j] == value;
    FieldsBetween(line, i, j);
  }

  /** Two spaces in a row leave the value empty: the value is the piece between them. */
  lemma DoubleSpace()
    ensures LineName("A  B") == "A" && LineValue("A  B") == ""
  {
    var line := "A  B";
    assert line[..1] == "A" && line[2..2] == "";
    FieldsBetween(line, 1, 2);
    TrimSpaceEnds("A");
    TrimSpaceEnds("");
  }

  /** A line without a space is all name and has no value. */
  lemma NoSeparator(line: string)
    requires ' ' !in line
    ensures LineName(line) == TrimSpace(line) && LineValue(line) == ""
  {
    IndexOfFirst(line, ' ');
    assert line[..|line|] == line;
    LineNameBeforeSpace(line);
    LineValueBetweenSpaces(line);
  }

  /** A tab does not separate fields: the whole line is the name. */
  lemma TabInLine()
    ensures LineName("A\tB") == "A\tB" && LineValue("A\tB") == ""
  {
    var line := "A\tB";
    assert ' ' !in line;
    NoSeparator(line);
    assert !IsSpace(line[0]) && !IsSpace(line[2]);
    TrimSpaceEnds(line);
  }

  /** A blank line, or one holding only white space, gives a member with an empty name and value. */
  lemma BlankLine(line: string)
    requires AllSpace(line)
    ensures LineName(line) == "" && LineValue(line) == ""
  {
    var i := IndexOf(line, ' ');
    assert AllSpace(line[..i]) by {
      assert forall k :: 0 <= k < i ==> line[..i][k] == line[k];
    }
    TrimSpaceEnds(line[..i]);
    LineNameBeforeSpace(line);
    if i < |line| {
      var j := IndexFrom(line, ' ', i + 1);
      assert AllSpace(line[i + 1..j]) by {
        assert forall k :: i + 1 <= k < j ==> line[i + 1..j][k - i - 1] == line[k];
      }
      TrimSpaceEnds(line[i + 1..j]);
    }
    LineValueBetweenSpaces(line);
  }
}

=== FILE: generator.dfy ===
/**
 * The generation pipeline (main.go:27-43, 98-122): resolve the package name,
 * read the template, then for each spec file in listing order derive the
 * type and output names, parse the members, bind them, render the template
 * and write the result. Failures of one file are logged and the next file is
 * processed; an empty spec file panics and ends the run.
 */
module Generator {
  import opened Wrappers
  import opened Text
  import opened Names
  import opened EnumSpec
  import opened PackageName
  import opened Context

  /** A spec file found by the listing: its path and its lines, or `None` when it cannot be read. */
  datatype SpecFile = SpecFile(path: string, lines: Option<seq<string>>)

  /** A generated file: its name and the rendered text. */
  datatype Output = Output(fileName: string, text: string)

  /** What processing one spec file comes to. */
  datatype Outcome =
    | Written(output: Output)   // the rendered text was written
    | Logged(error: Error)      // an error was logged and the file skipped
    | Panicked                  // main.go:111 indexed an empty member list

  /**
   * The template engine (main.go:164-178), which is not part of this model:
   * template text and bindings to rendered text, or a parse/render message.
   */
  type Renderer = (string, map<string, Binding>) -> Result<string, string>

  /**
   * What the run shares across files: the package name, the template, the
   * template engine, and which output files can be created and written.
   */
  datatype Job = Job(pkg: string, template: string, render: Renderer, canWrite: string -> bool)

  /** The output file a spec file path leads to (main.go:38-40). */
  function OutputNameOf(path: string): (name: string)
    ensures |name| >= 7 && name[..4] == "enum" && name[|name| - 3..] == ".go"
  {
    OutputFileName(TypeName(Base(path)))
  }

  /** The type name of a spec file `<dir>/<a>.goenum` is `a`. */
  lemma SpecFileTypeName(dir: string, a: string)
    requires '/' !in a
    ensures TypeName(Base(dir + "/" + a + ".goenum")) == a
  {
    var suffix := "goenum";
    assert '.' !in suffix && '/' !in suffix;
    var name := a + "." + suffix;
    assert name == a + ".goenum";
    assert dir + "/" + name == dir + "/" + a + ".goenum";
    assert forall k :: 0 <= k < |name| ==> name[k] != '/' by {
      assert forall k :: |a| < k < |name| ==> name[k] == suffix[k - |a| - 1];
    }
    BaseOfPath(dir, name);
    TypeNameOfDotted(a, suffix);
  }

  /**
   * Two spec files in the same folder whose names differ only in the case
   * of ASCII letters lead to the same output file, so the later one
   * overwrites the earlier one's output.
   */
  lemma OutputNameClash(dir: string, a: string, b: string)
    requires '/' !in a && '/' !in b
    requires ToLower(a) == ToLower(b)
    ensures OutputNameOf(dir + "/" + a + ".goenum") == OutputNameOf(dir + "/" + b + ".goenum")
  {
    SpecFileTypeName(dir, a);
    SpecFileTypeName(dir, b);
    OutputFileNameCollision(a, b);
  }

  /**
   * `processEnumDescriptionFile` for one spec file: an unreadable file, a
   * render failure or a write failure is logged, an empty file panics, and
   * otherwise the template rendered with the file's bindings is written.
   */
  function FileOutcome(file: SpecFile, typeName: string, outputFileName: string, job: Job): (o: Outcome)
    ensures o.Panicked? <==> file.lines == Some([])
    ensures file.lines.None? ==> o == Logged(ReadEnums)
    ensures o.Written? ==>
      && o.output.fileName == outputFileName
      && job.canWrite(outputFileName)
      && file.lines.Some?
      && var b := BindingsFor(job.pkg, typeName, EnumList(file.lines.value));
         b.Success? && job.render(job.template, b.value) == Success(o.output.text)
    ensures file.lines.Some? && file.lines.value != [] ==>
      && var b := BindingsFor(job.pkg, typeName, EnumList(file.lines.value));
         && b.Success?
         && var rendered := job.render(job.template, b.value);
            && (rendered.Failure? ==> o == Logged(RenderFailed(rendered.error)))
            && (rendered.Success? && job.canWrite(outputFileName) ==>
                  o == Written(Output(outputFileName, rendered.value)))
            && (rendered.Success? && !job.canWrite(outputFileName) ==>
                  o == Logged(WriteFailed(outputFileName)))
  {
    match file.lines
    case None => Logged(ReadEnums)
    case Some(lines) =>
      match BindingsFor(job.pkg, typeName, EnumList(lines))
      case Failure(_) => Panicked
      case Success(m) =>
        match job.render(job.template, m)
        case Failure(message) => Logged(RenderFailed(message))
        case Success(text) =>
          if job.canWrite(outputFileName) then Written(Output(outputFileName, text))
          else Logged(WriteFailed(outputFileName))
  }

  /** main.go:98-122, one spec file. */
  method ProcessEnumDescriptionFile(file: SpecFile, typeName: string, outputFileName: string, job: Job)
    returns (o: Outcome)
    ensures o == FileOutcome(file, typeName, outputFileName, job)
  {
    var enums := ReadEnumListFromFile(file.lines);
    if enums.Failure? {
      return Logged(enums.error);
    }
    EnumListMembers(file.lines.value);
    var m := FillBindings(job.pkg, typeName, enums.value);
    if m.Failure? {
      return Panicked;
    }
    var output := job.render(job.template, m.value);
    if output.Failure? {
      return Logged(RenderFailed(output.error));
    }
    if !job.canWrite(outputFileName) {
      return Logged(WriteFailed(outputFileName));
    }
    return Written(Output(outputFileName, output.value));
  }

  /** The outcome for a spec file with the names main.go:38-40 derive from its path. */
  function OutcomeOf(file: SpecFile, job: Job): (o: Outcome)
    ensures o.Panicked? <==> file.lines == Some([])
    ensures o.Written? ==> o.output.fileName == OutputNameOf(file.path)
  {
    FileOutcome(file, TypeName(Base(file.path)), OutputNameOf(file.path), job)
  }

  /** What the run has done so far: files written, errors logged, and whether it panicked. */
  datatype Progress = Progress(writes: seq<Output>, log: seq<Error>, panicked: bool)

  /** Records one file's outcome. */
  function Record(p: Progress, o: Outcome): Progress {
    match o
    case Written(output) => p.(writes := p.writes + [output])
    case Logged(e) => p.(log := p.log + [e])
    case Panicked => p.(panicked := true)
  }

  /** The outcomes of the spec files, one per file, in listing order. */
  function Outcomes(files: seq<SpecFile>, job: Job): (os: seq<Outcome>)
    ensures |os| == |files|
    ensures forall k :: 0 <= k < |files| ==> os[k] == OutcomeOf(files[k], job)
  {
    seq(|files|, k requires 0 <= k < |files| => OutcomeOf(files[k], job))
  }

  /** The progress after recording `os` in order, stopping at the first panic. */
  function Replay(os: seq<Outcome>): Progress
    decreases |os|
  {
    if os == [] then Progress([], [], false)
    else
      var p := Replay(os[..|os| - 1]);
      if p.panicked then p else Record(p, os[|os| - 1])
  }

  /** The progress after processing the spec files `files`, in order. */
  function RunFiles(files: seq<SpecFile>, job: Job): (p: Progress)
    ensures !p.panicked ==> |p.writes| + |p.log| == |files|
  {
    ReplayAccounts(Outcomes(files, job));
    Replay(Outcomes(files, job))
  }

  /** How a run ends. */
  datatype RunResult =
    | Aborted(error: Error)        // check(err) in main.go:29 or main.go:32
    | Ran(progress: Progress)

  /**
   * `main`: the `*.go` files of the working directory, the template (`None`
   * when it cannot be read) and the spec files in listing order.
   */
  function Run(goFiles: seq<Option<seq<string>>>, template: Option<string>, specFiles: seq<SpecFile>,
               render: Renderer, canWrite: string -> bool): (r: RunResult)
    ensures r.Aborted? ==> r.error == PackageNameNotFound || r.error == ReadTemplate
    ensures template.None? ==> r.Aborted?
  {
    match ResolvePackage(goFiles)
    case Failure(e) => Aborted(e)
    case Success(pkg) =>
      match template
      case None => Aborted(ReadTemplate)
      case Some(t) => Ran(RunFiles(specFiles, Job(pkg, t, render, canWrite)))
  }

  /** main.go:27-43. */
  method Generate(goFiles: seq<Option<seq<string>>>, template: Option<string>, specFiles: seq<SpecFile>,
                  render: Renderer, canWrite: string -> bool)
    returns (r: RunResult)
    ensures r == Run(goFiles, template, specFiles, render, canWrite)
  {
    var packageName := GetPackageName(goFiles);
    if packageName.Failure? {
      return Aborted(packageName.error);
    }
    if template.None? {
      return Aborted(ReadTemplate);
    }
    var job := Job(packageName.value, template.value, render, canWrite);
    var p := Progress([], [], false);
    var i := 0;
    while i < |specFiles|
      invariant 0 <= i <= |specFiles|
      invariant p == Replay(Outcomes(specFiles, job)[..i])
      invariant !p.panicked
    {
      var file := specFiles[i];
      var fileName := Base(file.path);
      var typeName := TypeName(fileName);
      var outputFileName := OutputFileName(typeName);
      var o := ProcessEnumDescriptionFile(file, typeName, outputFileName, job);
      assert o == Outcomes(specFiles, job)[i];
      ReplayStep(Outcomes(specFiles, job), i);
      p := Record(p, o);
      i := i + 1;
      if o.Panicked? {
        ReplayStopped(Outcomes(specFiles, job), i);
        return Ran(p);
      }
    }
    assert Outcomes(specFiles, job)[..i] == Outcomes(specFiles, job);
    return Ran(p);
  }

  /** Before a panic, one more outcome is recorded on top of the progress so far. */
  lemma ReplayStep(os: seq<Outcome>, i: nat)
    requires i < |os|
    requires !Replay(os[..i]).panicked
    ensures Replay(os[..i + 1]) == Record(Replay(os[..i]), os[i])
  {
    assert os[..i + 1][..i] == os[..i];
  }

  /** Once the run has panicked, later outcomes change nothing. */
  lemma {:induction false} ReplayStopped(os: seq<Outcome>, i: nat)
    requires i <= |os|
    requires Replay(os[..i]).panicked
    ensures Replay(os) == Replay(os[..i])
    decreases |os| - i
  {
    if i < |os| {
      assert os[..i + 1][..i] == os[..i];
      ReplayStopped(os, i + 1);
    } else {
      assert os[..i] == os;
    }
  }

  /** The replay panics exactly when one of the outcomes is a panic. */
  lemma {:induction false} ReplayPanics(os: seq<Outcome>)
    ensures Replay(os).panicked <==> exists k :: 0 <= k < |os| && os[k].Panicked?
    decreases |os|
  {
    if os != [] {
      var init := os[..|os| - 1];
      ReplayPanics(init);
      assert forall k :: 0 <= k < |init| ==> init[k] == os[k];
      if exists k :: 0 <= k < |os| && os[k].Panicked? {
        var k :| 0 <= k < |os| && os[k].Panicked?;
        if k < |init| {
          assert init[k].Panicked?;
        }
      }
    }
  }

  /** Without a panic every outcome is either one write or one log entry. */
  lemma {:induction false} ReplayAccounts(os: seq<Outcome>)
    ensures !Replay(os).panicked ==> |Replay(os).writes| + |Replay(os).log| == |os|
    decreases |os|
  {
    if os != [] {
      ReplayAccounts(os[..|os| - 1]);
    }
  }

  /** Every write recorded is one of the outcomes. */
  lemma {:induction false} ReplayWrites(os: seq<Outcome>)
    ensures forall w :: w in Replay(os).writes ==> exists k :: 0 <= k < |os| && os[k] == Written(w)
    decreases |os|
  {
    if os != [] {
      var init := os[..|os| - 1];
      ReplayWrites(init);
      assert forall k :: 0 <= k < |init| ==> init[k] == os[k];
    }
  }

  /** Recording more outcomes only adds writes and log entries after the earlier ones. */
  lemma {:induction false} ReplayExtends(os: seq<Outcome>, i: nat)
    requires i <= |os|
    ensures Replay(os[..i]).writes <= Replay(os).writes
    ensures Replay(os[..i]).log <= Replay(os).log
    ensures Replay(os[..i]).panicked ==> Replay(os).panicked
    decreases |os| - i
  {
    if i < |os| {
      assert os[..i + 1][..i] == os[..i];
      ReplayExtends(os, i + 1);
    } else {
      assert os[..i] == os;
    }
  }

  /** An outcome reached without an earlier panic is recorded after everything before it. */
  lemma ReplayRecords(os: seq<Outcome>, k: nat)
    requires k < |os|
    requires forall j :: 0 <= j < k ==> !os[j].Panicked?
    ensures os[k].Written? ==> Replay(os[..k]).writes + [os[k].output] <= Replay(os).writes
    ensures os[k].Logged? ==> Replay(os[..k]).log + [os[k].error] <= Replay(os).log
  {
    ReplayPanics(os[..k]);
    assert forall j :: 0 <= j < k ==> os[..k][j] == os[j];
    ReplayStep(os, k);
    ReplayExtends(os, k + 1);
  }

  /** The run panics exactly when one of the spec files can be read and is empty. */
  lemma RunFilesPanics(files: seq<SpecFile>, job: Job)
    ensures RunFiles(files, job).panicked <==> exists k :: 0 <= k < |files| && files[k].lines == Some([])
  {
    var os := Outcomes(files, job);
    ReplayPanics(os);
    assert forall k :: 0 <= k < |files| ==> (os[k].Panicked? <==> files[k].lines == Some([]));
  }

  /**
   * Each file reached without an earlier panic has its outcome recorded, in
   * order: a write is appended after the writes of the files before it, a
   * logged error after their log entries. A logged failure does not stop
   * later files from being processed.
   */
  lemma RunFilesRecords(files: seq<SpecFile>, job: Job, k: nat)
    requires k < |files|
    requires forall j :: 0 <= j < k ==> files[j].lines != Some([])
    ensures var o := OutcomeOf(files[k], job);
      o.Written? ==> RunFiles(files[..k], job).writes + [o.output] <= RunFiles(files, job).writes
    ensures var o := OutcomeOf(files[k], job);
      o.Logged? ==> RunFiles(files[..k], job).log + [o.error] <= RunFiles(files, job).log
  {
    var os := Outcomes(files, job);
    assert Outcomes(files[..k], job) == os[..k];
    ReplayRecords(os, k);
  }

  /**
   * Every output written comes from one of the spec files, is named after
   * its path, and holds the template rendered with that file's bindings.
   */
  lemma RunFilesWrites(files: seq<SpecFile>, job: Job)
    ensures forall w :: w in RunFiles(files, job).writes ==>
      exists k :: 0 <= k < |files| && OutcomeOf(files[k], job) == Written(w) &&
        w.fileName == OutputNameOf(files[k].path)
  {
    var os := Outcomes(files, job);
    ReplayWrites(os);
  }

  /** Processing more spec files only adds outputs and log entries after the earlier ones. */
  lemma RunFilesExtends(files: seq<SpecFile>, more: seq<SpecFile>, job: Job)
    ensures RunFiles(files, job).writes <= RunFiles(files + more, job).writes
    ensures RunFiles(files, job).log <= RunFiles(files + more, job).log
    ensures RunFiles(files, job).panicked ==> RunFiles(files + more, job) == RunFiles(files, job)
  {
    var os := Outcomes(files + more, job);
    assert os[..|files|] == Outcomes(files, job);
    ReplayExtends(os, |files|);
    if RunFiles(files, job).panicked {
      ReplayStopped(os, |files|);
    }
  }

  /**
   * Three spec files, the middle one empty: the first file's output is
   * written, the panic on the second ends the run, and the third file is
   * never processed, so nothing is logged for it and its output is missing.
   */
  lemma EmptyFileEndsRun(first: SpecFile, path: string, third: SpecFile, job: Job)
    requires OutcomeOf(first, job).Written?
    ensures RunFiles([first, SpecFile(path, Some([])), third], job) ==
      Progress([OutcomeOf(first, job).output], [], true)
  {
    var files := [first, SpecFile(path, Some([])), third];
    var os := Outcomes(files, job);
    assert os[0] == OutcomeOf(first, job);
    assert os[1] == OutcomeOf(files[1], job);
    PanicAfterWrite(os);
  }

  /** A write, then a panic: only the write is recorded, whatever follows. */
  lemma PanicAfterWrite(os: seq<Outcome>)
    requires |os| >= 2 && os[0].Written? && os[1].Panicked?
    ensures Replay(os) == Progress([os[0].output], [], true)
  {
    ReplayStep(os, 0);
    assert os[..0] == [];
    assert Replay(os[..1]) == Progress([os[0].output], [], false);
    ReplayStep(os, 1);
    ReplayStopped(os, 2);
  }

  /**
   * The run stops with "Package name not found" exactly when no Go file
   * names a package, and with the template error exactly when a package is
   * found but the template cannot be read.
   */
  lemma RunAborts(goFiles: seq<Option<seq<string>>>, template: Option<string>, specFiles: seq<SpecFile>,
                  render: Renderer, canWrite: string -> bool)
    ensures Run(goFiles, template, specFiles, render, canWrite) == Aborted(PackageNameNotFound) <==>
      forall k :: 0 <= k < |goFiles| ==> FilePackage(goFiles[k]) == ""
    ensures Run(goFiles, template, specFiles, render, canWrite) == Aborted(ReadTemplate) <==>
      (exists k :: 0 <= k < |goFiles| && FilePackage(goFiles[k]) != "") && template.None?
  {
    ResolvePackageFirst(goFiles);
  }
}

=== FILE: names.dfy ===
/**
 * How the generator names things: the base name of a discovered spec file,
 * the enum type name taken from it, and the output file the type is written to.
 * Paths use `/` as the separator (a Unix build).
 */
module Names {
  import opened Text

  /** The part of `path` after its last `/` (all of it when there is none). */
  function LastElement(path: string): (r: string)
    ensures |r| <= |path| && r == path[|path| - |r|..]
    ensures '/' !in r
    ensures |r| < |path| ==> path[|path| - |r| - 1] == '/'
  {
    if path == [] || path[|path| - 1] == '/' then []
    else LastElement(path[..|path| - 1]) + [path[|path| - 1]]
  }

  /** `path` without its trailing `/` characters. */
  function TrimTrailingSlashes(path: string): (r: string)
    ensures |r| <= |path| && r == path[..|r|]
    ensures r == [] || r[|r| - 1] != '/'
    ensures forall k :: |r| <= k < |path| ==> path[k] == '/'
  {
    if path != [] && path[|path| - 1] == '/' then TrimTrailingSlashes(path[..|path| - 1]) else path
  }

  /** `filepath.Base`: the last element of `path`, "." for the empty path, "/" for a path of slashes. */
  function Base(path: string): (r: string)
    ensures r != []
    ensures path != [] && '/' !in path ==> r == path
    ensures r != "/" ==> '/' !in r
  {
    if path == [] then "."
    else
      var trimmed := TrimTrailingSlashes(path);
      var last := LastElement(trimmed);
      if last == [] then "/" else last
  }

  /**
   * The backward scan of `filepath.Ext` over `path[..j]`: the index of the
   * last `.` when no `/` follows it, or -1.
   */
  function DotFrom(path: string, j: nat): (i: int)
    requires j <= |path|
    ensures -1 <= i < j
    ensures i >= 0 ==> path[i] == '.'
  {
    if j == 0 || path[j - 1] == '/' then -1
    else if path[j - 1] == '.' then j - 1
    else DotFrom(path, j - 1)
  }

  /** Nothing between the `.` found and the scan's start is a `.` or a `/`. */
  lemma {:induction false} DotFromLast(path: string, j: nat)
    requires j <= |path|
    ensures DotFrom(path, j) >= 0 ==>
      forall k :: DotFrom(path, j) < k < j ==> path[k] != '.' && path[k] != '/'
  {
    if j > 0 && path[j - 1] != '/' && path[j - 1] != '.' {
      DotFromLast(path, j - 1);
    }
  }

  /** Without a `/`, the scan finds nothing exactly when there is no `.`. */
  lemma {:induction false} DotFromNoSlash(path: string, j: nat)
    requires j <= |path|
    requires forall k :: 0 <= k < j ==> path[k] != '/'
    ensures DotFrom(path, j) < 0 <==> forall k :: 0 <= k < j ==> path[k] != '.'
  {
    if j > 0 && path[j - 1] != '.' {
      DotFromNoSlash(path, j - 1);
    }
  }

  /** The scan stops at a `.` followed by neither `.` nor `/`. */
  lemma {:induction false} DotFromAt(path: string, i: nat, j: nat)
    requires i < j <= |path| && path[i] == '.'
    requires forall k :: i < k < j ==> path[k] != '.' && path[k] != '/'
    ensures DotFrom(path, j) == i
  {
    if i < j - 1 {
      DotFromAt(path, i, j - 1);
    }
  }

  /**
   * `filepath.Ext`: the suffix of `path` from the final `.` of its last
   * element, or "" when that element has no `.`.
   */
  function Ext(path: string): (e: string)
    ensures |e| <= |path| && e == path[|path| - |e|..]
    ensures e != [] ==> e[0] == '.'
  {
    var i := DotFrom(path, |path|);
    if i < 0 then [] else path[i..]
  }

  /**
   * The extension holds no further `.` and no `/`; for a path without `/`
   * it is empty exactly when the path has no `.`.
   */
  lemma ExtShape(path: string)
    ensures forall k :: 1 <= k < |Ext(path)| ==> Ext(path)[k] != '.' && Ext(path)[k] != '/'
    ensures '/' !in path ==> (Ext(path) == [] <==> '.' !in path)
  {
    DotFromLast(path, |path|);
    if '/' !in path {
      DotFromNoSlash(path, |path|);
    }
  }

  /** The enum type name: the spec file's name without its extension (main.go:88-91). */
  function TypeName(fileName: string): (r: string)
    ensures r + Ext(fileName) == fileName
    ensures '.' !in fileName ==> r == fileName
  {
    TrimSuffix(fileName, Ext(fileName))
  }

  /** The output file name: "enum", the lower-cased type name, ".go" (main.go:93-96). */
  function OutputFileName(typeName: string): (r: string)
    ensures |r| == |typeName| + 7
    ensures r[..4] == "enum" && r[|r| - 3..] == ".go"
    ensures r[4..|r| - 3] == ToLower(typeName)
  {
    "enum" + ToLower(typeName) + ".go"
  }

  /**
   * Two type names share an output file exactly when they agree after
   * lower-casing; so spec files whose names differ only in case overwrite
   * each other's output.
   */
  lemma OutputFileNameCollision(a: string, b: string)
    ensures OutputFileName(a) == OutputFileName(b) <==> ToLower(a) == ToLower(b)
  {
    if OutputFileName(a) == OutputFileName(b) {
      var r := OutputFileName(a);
      assert ToLower(a) == r[4..|r| - 3] == ToLower(b);
    }
  }

  /** The output file of a type does not depend on the case of its name. */
  lemma OutputFileNameIgnoresCase(typeName: string)
    ensures OutputFileName(ToLower(typeName)) == OutputFileName(typeName)
  {
    ToLowerIdempotent(typeName);
  }

  /** Whatever follows the last `/` is the base name. */
  lemma {:induction false} LastElementAfterSlash(dir: string, name: string)
    requires '/' !in name
    ensures LastElement(dir + "/" + name) == name
    decreases |name|
  {
    var p := dir + "/" + name;
    if name == [] {
      assert p[|p| - 1] == '/';
    } else {
      var n := |name|;
      assert p[..|p| - 1] == dir + "/" + name[..n - 1];
      assert name[n - 1] in name;
      LastElementAfterSlash(dir, name[..n - 1]);
      assert name == name[..n - 1] + [name[n - 1]];
    }
  }

  /** The extension runs from the last `.`: for `stem.suffix` it is `.suffix`. */
  lemma ExtOfDotted(stem: string, suffix: string)
    requires '.' !in suffix && '/' !in suffix
    ensures Ext(stem + "." + suffix) == "." + suffix
  {
    var p := stem + "." + suffix;
    var i := |stem|;
    assert forall k :: i < k < |p| ==> p[k] == suffix[k - i - 1];
    DotFromAt(p, i, |p|);
    assert p[i..] == "." + suffix;
  }

  /** The type name is everything before the last `.` (main.go:89). */
  lemma TypeNameOfDotted(stem: string, suffix: string)
    requires '.' !in suffix && '/' !in suffix
    ensures TypeName(stem + "." + suffix) == stem
  {
    ExtOfDotted(stem, suffix);
    var f := stem + "." + suffix;
    assert TypeName(f) + ("." + suffix) == stem + ("." + suffix);
  }

  /** The base name of `dir/name` is `name`. */
  lemma BaseOfPath(dir: string, name: string)
    requires name != [] && '/' !in name
    ensures Base(dir + "/" + name) == name
  {
    var p := dir + "/" + name;
    assert p[|p| - 1] == name[|name| - 1];
    assert name[|name| - 1] in name;
    assert TrimTrailingSlashes(p) == p;
    LastElementAfterSlash(dir, name);
  }

  /** The example of main.go:89: `goenum/Alignment.goenum` has type name `Alignment`. */
  lemma AlignmentTypeName()
    ensures TypeName(Base("goenum/Alignment.goenum")) == "Alignment"
  {
    var stem, suffix := "Alignment", "goenum";
    var name := stem + "." + suffix;
    assert "goenum" + "/" + name == "goenum/Alignment.goenum";
    assert '/' !in name && '.' !in suffix;
    BaseOfPath("goenum", name);
    TypeNameOfDotted(stem, suffix);
  }

  /** A name whose only capital is its first letter is lower-cased in that letter alone. */
  lemma OutputOfCapitalised(c: char, rest: string)
    requires forall k :: 0 <= k < |rest| ==> !IsUpperAscii(rest[k])
    ensures OutputFileName([c] + rest) == "enum" + [LowerChar(c)] + rest + ".go"
  {
    var s := [c] + rest;
    assert s[1..] == rest;
    assert ToLower(rest) == rest;
  }

  /** The example of main.go:94: type `Alignment` is written to `enumalignment.go`. */
  lemma AlignmentOutputFileName()
    ensures OutputFileName("Alignment") == "enumalignment.go"
  {
    var rest := "lignment";
    assert ['A'] + rest == "Alignment";
    assert LowerChar('A') == 'a';
    assert "enum" + ['a'] + rest + ".go" == "enumalignment.go";
    OutputOfCapitalised('A', rest);
  }
}

=== FILE: package.dfy ===
/**
 * Finding the package the generated files belong to (main.go:52-86): the
 * first line of a Go source file that starts with `package` and has a second
 * white-space separated field names the package; the first source file that
 * names one decides it.
 */
module PackageName {
  import opened Wrappers
  import opened Text

  /** The prefix main.go:78 looks for. */
  const Keyword := "package"

  /**
   * What one line declares: its second field when the line starts with
   * `package` and has more than one field. A line with the prefix but a
   * single field is passed over, like any other line.
   */
  function PackageClause(line: string): (r: Option<string>)
    ensures r.Some? ==> HasPrefix(line, Keyword) && r.value != [] && NoSpace(r.value)
  {
    if HasPrefix(line, Keyword) then
      var fields := Fields(line);
      if |fields| > 1 then Some(fields[1]) else None
    else None
  }

  /** The package named by the first declaring line among `lines[from..]`, or "" when none does. */
  function PackageFrom(lines: seq<string>, from: nat): (name: string)
    requires from <= |lines|
    ensures name == [] || NoSpace(name)
    ensures name != [] ==> exists k :: from <= k < |lines| && PackageClause(lines[k]) == Some(name)
    decreases |lines| - from
  {
    if from == |lines| then ""
    else match PackageClause(lines[from])
      case Some(n) => n
      case None => PackageFrom(lines, from + 1)
  }

  /** The package a file's lines declare, or "" when no line does. */
  function DeclaredPackage(lines: seq<string>): (name: string)
    ensures name == [] || NoSpace(name)
    ensures name != [] ==> exists k :: 0 <= k < |lines| && PackageClause(lines[k]) == Some(name)
  {
    PackageFrom(lines, 0)
  }

  /**
   * The search yields "" exactly when no line declares a package, and
   * otherwise the package of the first line that declares one.
   */
  lemma {:induction false} PackageFromFirst(lines: seq<string>, from: nat)
    requires from <= |lines|
    ensures PackageFrom(lines, from) == "" <==>
      forall k :: from <= k < |lines| ==> PackageClause(lines[k]).None?
    ensures PackageFrom(lines, from) != "" ==>
      exists k :: from <= k < |lines| && PackageClause(lines[k]) == Some(PackageFrom(lines, from)) &&
        forall j :: from <= j < k ==> PackageClause(lines[j]).None?
    decreases |lines| - from
  {
    if from < |lines| {
      if PackageClause(lines[from]).None? {
        PackageFromFirst(lines, from + 1);
        if PackageFrom(lines, from) != "" {
          var k :| from + 1 <= k < |lines| && PackageClause(lines[k]) == Some(PackageFrom(lines, from)) &&
            forall j :: from + 1 <= j < k ==> PackageClause(lines[j]).None?;
          assert forall j :: from <= j < k ==> PackageClause(lines[j]).None?;
        }
      } else {
        assert PackageClause(lines[from]) == Some(PackageFrom(lines, from));
      }
    }
  }

  /** `DeclaredPackage` is the first declaration in the file, and "" when there is none. */
  lemma DeclaredPackageFirst(lines: seq<string>)
    ensures DeclaredPackage(lines) == "" <==>
      forall k :: 0 <= k < |lines| ==> PackageClause(lines[k]).None?
    ensures DeclaredPackage(lines) != "" ==>
      exists k :: 0 <= k < |lines| && PackageClause(lines[k]) == Some(DeclaredPackage(lines)) &&
        forall j :: 0 <= j < k ==> PackageClause(lines[j]).None?
  {
    PackageFromFirst(lines, 0);
  }

  /** What `readPackageNameFromGoFile` gives for a file: "" when it cannot be opened. */
  function FilePackage(file: Option<seq<string>>): string {
    match file
    case None => ""
    case Some(lines) => DeclaredPackage(lines)
  }

  /**
   * `readPackageNameFromGoFile` (main.go:68-86): `None` stands for a file
   * that cannot be opened. The lines are scanned in order and the scan stops
   * at the first declaring line.
   */
  method ReadPackageNameFromGoFile(file: Option<seq<string>>) returns (packageName: string)
    ensures packageName == FilePackage(file)
  {
    if file.None? {
      return "";
    }
    var lines := file.value;
    var i := 0;
    while i < |lines|
      invariant 0 <= i <= |lines|
      invariant PackageFrom(lines, i) == DeclaredPackage(lines)
    {
      var s := lines[i];
      if HasPrefix(s, Keyword) {
        var fields := Fields(s);
        if |fields| > 1 {
          return fields[1];
        }
      }
      i := i + 1;
    }
    return "";
  }

  /** What each Go file declares, in listing order. */
  function FilePackages(files: seq<Option<seq<string>>>): (names: seq<string>)
    ensures |names| == |files|
    ensures forall k :: 0 <= k < |files| ==> names[k] == FilePackage(files[k])
  {
    seq(|files|, k requires 0 <= k < |files| => FilePackage(files[k]))
  }

  /** The first non-empty name among `names[from..]`, or "" when all are empty. */
  function FirstNonEmpty(names: seq<string>, from: nat): (name: string)
    requires from <= |names|
    ensures name != "" ==> exists k :: from <= k < |names| && names[k] == name
    decreases |names| - from
  {
    if from == |names| then ""
    else if names[from] != "" then names[from]
    else FirstNonEmpty(names, from + 1)
  }

  /** The package all generated files get, or the error when no Go file names one. */
  function ResolvePackage(files: seq<Option<seq<string>>>): (r: Result<string, Error>)
    ensures r.Failure? ==> r.error == PackageNameNotFound
    ensures r.Success? ==> r.value != "" && exists k :: 0 <= k < |files| && FilePackage(files[k]) == r.value
  {
    var name := FirstNonEmpty(FilePackages(files), 0);
    if name == "" then Failure(PackageNameNotFound) else Success(name)
  }

  /**
   * The search yields "" exactly when every name is empty, and otherwise
   * the first name that is not.
   */
  lemma {:induction false} FirstNonEmptyFirst(names: seq<string>, from: nat)
    requires from <= |names|
    ensures FirstNonEmpty(names, from) == "" <==> forall k :: from <= k < |names| ==> names[k] == ""
    ensures FirstNonEmpty(names, from) != "" ==>
      exists k :: from <= k < |names| && names[k] == FirstNonEmpty(names, from) &&
        forall j :: from <= j < k ==> names[j] == ""
    decreases |names| - from
  {
    if from < |names| && names[from] == "" {
      FirstNonEmptyFirst(names, from + 1);
      if FirstNonEmpty(names, from) != "" {
        var k :| from + 1 <= k < |names| && names[k] == FirstNonEmpty(names, from) &&
          forall j :: from + 1 <= j < k ==> names[j] == "";
        assert forall j :: from <= j < k ==> names[j] == "";
      }
    }
  }

  /**
   * Resolution fails with "Package name not found" exactly when no file
   * names a package; otherwise it picks the first file that does.
   */
  lemma ResolvePackageFirst(files: seq<Option<seq<string>>>)
    ensures ResolvePackage(files) == Failure(PackageNameNotFound) <==>
      forall k :: 0 <= k < |files| ==> FilePackage(files[k]) == ""
    ensures ResolvePackage(files).Success? ==>
      exists k :: 0 <= k < |files| && FilePackage(files[k]) == ResolvePackage(files).value &&
        forall j :: 0 <= j < k ==> FilePackage(files[j]) == ""
  {
    FirstNonEmptyFirst(FilePackages(files), 0);
  }

  /**
   * `getPackageName` (main.go:52-66), given the `*.go` files of the working
   * directory in the order the listing returns them.
   */
  method GetPackageName(files: seq<Option<seq<string>>>) returns (r: Result<string, Error>)
    ensures r == ResolvePackage(files)
  {
    ghost var names := FilePackages(files);
    var i := 0;
    while i < |files|
      invariant 0 <= i <= |files|
      invariant FirstNonEmpty(names, i) == FirstNonEmpty(names, 0)
    {
      var s := ReadPackageNameFromGoFile(files[i]);
      assert s == names[i];
      if s != "" {
        assert FirstNonEmpty(names, 0) == s;
        return Success(s);
      }
      i := i + 1;
    }
    assert FirstNonEmpty(names, 0) == "";
    return Failure(PackageNameNotFound);
  }

  /**
   * A line that starts with `package`, whose first field ends at `w` and
   * whose second field is `line[a..b]`, declares that second field.
   */
  lemma PackageClauseAt(line: string, w: nat, a: nat, b: nat)
    requires HasPrefix(line, Keyword)
    requires |Keyword| <= w < a < b <= |line|
    requires forall k :: 0 <= k < w ==> !IsSpace(line[k])
    requires forall k :: w <= k < a ==> IsSpace(line[k])
    requires forall k :: a <= k < b ==> !IsSpace(line[k])
    requires b == |line| || IsSpace(line[b])
    ensures PackageClause(line) == Some(line[a..b])
  {
    FieldsFromWord(line, 0, 0, w);
    FieldsFromWord(line, w, a, b);
  }

  /**
   * A line made of a word that starts with `package`, white space, `name`
   * and anything after a further white-space character declares `name`.
   */
  lemma PackageClauseOf(tail: string, gap: string, name: string, rest: string)
    requires NoSpace(tail)
    requires gap != [] && AllSpace(gap)
    requires name != [] && NoSpace(name)
    requires rest == [] || IsSpace(rest[0])
    ensures PackageClause(Keyword + tail + gap + name + rest) == Some(name)
  {
    var line := Keyword + tail + gap + name + rest;
    var w := |Keyword| + |tail|;
    var a := w + |gap|;
    var b := a + |name|;
    assert line[..|Keyword|] == Keyword;
    assert forall k :: 0 <= k < |Keyword| ==> line[k] == Keyword[k];
    assert forall k :: |Keyword| <= k < w ==> line[k] == tail[k - |Keyword|];
    assert forall k :: w <= k < a ==> line[k] == gap[k - w];
    assert forall k :: a <= k < b ==> line[k] == name[k - a];
    assert b < |line| ==> line[b] == rest[0];
    assert line[a..b] == name;
    PackageClauseAt(line, w, a, b);
  }

  /**
   * A line whose only field starts with `package` (the keyword itself, or a
   * longer word such as `packagex`), followed by white space only, declares
   * nothing.
   */
  lemma BareKeyword(tail: string, gap: string)
    requires NoSpace(tail) && AllSpace(gap)
    ensures PackageClause(Keyword + tail + gap) == None
  {
    var line := Keyword + tail + gap;
    var w := |Keyword| + |tail|;
    assert forall k :: 0 <= k < |Keyword| ==> line[k] == Keyword[k];
    assert forall k :: |Keyword| <= k < w ==> line[k] == tail[k - |Keyword|];
    assert forall k :: w <= k < |line| ==> line[k] == gap[k - w];
    FieldsFromWord(line, 0, 0, w);
    SkipSpaceRun(line, w, |line|);
  }

  /** A clause indented by white space is not recognised. */
  lemma IndentedClause(indent: string, rest: string)
    requires indent != [] && AllSpace(indent)
    ensures PackageClause(indent + Keyword + rest) == None
  {
    var line := indent + Keyword + rest;
    assert line[0] == indent[0];
  }

  /** A bare `package` line declares nothing. */
  lemma BareKeywordLine()
    ensures PackageClause("package") == None
  {
    BareKeyword("", "");
    assert Keyword + "" + "" == "package";
  }

  /** An indented clause is not recognised. */
  lemma IndentedLine()
    ensures PackageClause(" package main") == None
  {
    IndentedClause(" ", " main");
    assert " " + Keyword + " main" == " package main";
  }

  /** Any word that merely starts with `package` counts as the keyword. */
  lemma LongerKeyword()
    ensures PackageClause("packages main") == Some("main")
  {
    PackageClauseOf("s", " ", "main", "");
    assert Keyword + "s" + " " + "main" + "" == "packages main";
  }

  /** A comment line starting with `package` declares its second word. */
  lemma CommentLine()
    ensures PackageClause("package docs follow") == Some("docs")
  {
    PackageClauseOf("", " ", "docs", " follow");
    assert Keyword + "" + " " + "docs" + " follow" == "package docs follow";
  }

  /** When the first line declares nothing and the second declares `name`, the file declares `name`. */
  lemma SecondLineDeclares(first: string, second: string, rest: seq<string>, name: string)
    requires PackageClause(first) == None && PackageClause(second) == Some(name)
    ensures DeclaredPackage([first, second] + rest) == name
  {
    var lines := [first, second] + rest;
    assert lines[0] == first && lines[1] == second;
    assert PackageFrom(lines, 1) == name;
  }

  /**
   * A comment line before the package clause that happens to start with
   * `package` decides the package instead of the clause.
   */
  lemma CommentBeforeClause()
    ensures DeclaredPackage(["/*", "package docs follow", "*/", "package main"]) == "docs"
  {
    CommentLine();
    assert !HasPrefix("/*", Keyword);
    SecondLineDeclares("/*", "package docs follow", ["*/", "package main"], "docs");
    assert ["/*", "package docs follow"] + ["*/", "package main"] ==
      ["/*", "package docs follow", "*/", "package main"];
  }
}

=== FILE: text.dfy ===
/**
 * The pieces of Go's `strings` package the generator relies on, on strings of
 * Unicode scalar values: white space as `unicode.IsSpace` defines it,
 * `TrimSpace`, `Split` around one separator character, `Join`, `Fields`,
 * `TrimSuffix` and an ASCII-only `ToLower`.
 *
 * The scanners walk positions of one string (`from`, `hi`) instead of
 * re-slicing it, which keeps the proofs about them small.
 */
module Text {

  /** `unicode.IsSpace`: the fixed set of white-space code points. */
  predicate IsSpace(c: char) {
    || ('\t' <= c <= '\r') || c == ' '
    || c == '\U{0085}' || c == '\U{00A0}' || c == '\U{1680}'
    || ('\U{2000}' <= c <= '\U{200A}')
    || c == '\U{2028}' || c == '\U{2029}' || c == '\U{202F}' || c == '\U{205F}' || c == '\U{3000}'
  }

  /** Among ASCII characters, the white space is tab, newline, vertical tab, form feed, carriage return and space. */
  lemma IsSpaceAscii(c: char)
    requires c < '\U{0080}'
    ensures IsSpace(c) <==>
      c == '\t' || c == '\n' || c == '\U{000B}' || c == '\U{000C}' || c == '\r' || c == ' '
  {
  }

  predicate AllSpace(s: string) {
    forall k :: 0 <= k < |s| ==> IsSpace(s[k])
  }

  predicate NoSpace(s: string) {
    forall k :: 0 <= k < |s| ==> !IsSpace(s[k])
  }

  /** The first position at or after `from` that is not white space, or `|s|`. */
  function SkipSpace(s: string, from: nat): (i: nat)
    requires from <= |s|
    ensures from <= i <= |s|
    ensures i < |s| ==> !IsSpace(s[i])
    ensures forall k :: from <= k < i ==> IsSpace(s[k])
    decreases |s| - from
  {
    if from == |s| || !IsSpace(s[from]) then from else SkipSpace(s, from + 1)
  }

  /** The first position at or after `from` that is white space, or `|s|`. */
  function WordEnd(s: string, from: nat): (i: nat)
    requires from <= |s|
    ensures from <= i <= |s|
    ensures i < |s| ==> IsSpace(s[i])
    ensures forall k :: from <= k < i ==> !IsSpace(s[k])
    decreases |s| - from
  {
    if from == |s| || IsSpace(s[from]) then from else WordEnd(s, from + 1)
  }

  /** Moving back from `hi`, the end of the text in `s[lo..hi]` once trailing white space is dropped. */
  function TrimEnd(s: string, lo: nat, hi: nat): (j: nat)
    requires lo <= hi <= |s|
    ensures lo <= j <= hi
    ensures j > lo ==> !IsSpace(s[j - 1])
    ensures forall k :: j <= k < hi ==> IsSpace(s[k])
    decreases hi
  {
    if hi == lo || !IsSpace(s[hi - 1]) then hi else TrimEnd(s, lo, hi - 1)
  }

  /** `strings.TrimSpace`: `s` without its leading and trailing white space. */
  function TrimSpace(s: string): (r: string)
    ensures |r| <= |s|
    ensures r == [] || (!IsSpace(r[0]) && !IsSpace(r[|r| - 1]))
  {
    var a := SkipSpace(s, 0);
    s[a..TrimEnd(s, a, |s|)]
  }

  /**
   * `TrimSpace` removes exactly an all-space prefix and an all-space suffix:
   * the result is a slice of the input with only white space around it.
   */
  lemma TrimSpaceSlice(s: string)
    ensures exists i, j :: 0 <= i <= j <= |s| && TrimSpace(s) == s[i..j] && AllSpace(s[..i]) && AllSpace(s[j..])
  {
    var a := SkipSpace(s, 0);
    var b := TrimEnd(s, a, |s|);
    assert AllSpace(s[..a]) by {
      assert forall k :: 0 <= k < a ==> s[..a][k] == s[k];
    }
    assert AllSpace(s[b..]) by {
      assert forall k :: 0 <= k < |s| - b ==> s[b..][k] == s[b + k];
    }
    assert TrimSpace(s) == s[a..b];
  }

  /**
   * `TrimSpace` drops white space only: it gives "" exactly for an all-space
   * string, and leaves alone a string that neither starts nor ends with
   * white space.
   */
  lemma TrimSpaceEnds(s: string)
    ensures TrimSpace(s) == [] <==> AllSpace(s)
    ensures s == [] || (!IsSpace(s[0]) && !IsSpace(s[|s| - 1])) ==> TrimSpace(s) == s
  {
    var a := SkipSpace(s, 0);
    if a < |s| {
      assert TrimEnd(s, a, |s|) > a;
    }
    if s != [] && !IsSpace(s[0]) && !IsSpace(s[|s| - 1]) {
      assert a == 0 && TrimEnd(s, a, |s|) == |s|;
      assert s[0..|s|] == s;
    }
  }

  /** The first position at or after `from` holding `c`, or `|s|`. */
  function IndexFrom(s: string, c: char, from: nat): (i: nat)
    requires from <= |s|
    ensures from <= i <= |s|
    ensures i < |s| ==> s[i] == c
    decreases |s| - from
  {
    if from == |s| || s[from] == c then from else IndexFrom(s, c, from + 1)
  }

  /** The search passes over no `c`. */
  lemma {:induction false} IndexFromSkips(s: string, c: char, from: nat)
    requires from <= |s|
    ensures forall k :: from <= k < IndexFrom(s, c, from) ==> s[k] != c
    decreases |s| - from
  {
    if from < |s| && s[from] != c {
      IndexFromSkips(s, c, from + 1);
    }
  }

  /** Position of the first `c` in `s`, or `|s|` when there is none. */
  function IndexOf(s: string, c: char): (i: nat)
    ensures i <= |s|
    ensures i < |s| ==> s[i] == c
  {
    IndexFrom(s, c, 0)
  }

  /** `IndexOf` finds the first `c`; it runs off the end exactly when there is none. */
  lemma IndexOfFirst(s: string, c: char)
    ensures forall k :: 0 <= k < IndexOf(s, c) ==> s[k] != c
    ensures IndexOf(s, c) == |s| <==> c !in s
  {
    IndexFromSkips(s, c, 0);
  }

  /** The pieces of `s[from..]` between occurrences of `sep`. */
  function SplitFrom(s: string, sep: char, from: nat): (parts: seq<string>)
    requires from <= |s|
    ensures |parts| >= 1
    decreases |s| - from
  {
    var i := IndexFrom(s, sep, from);
    if i == |s| then [s[from..]] else [s[from..i]] + SplitFrom(s, sep, i + 1)
  }

  /** `strings.Split(s, string(sep))`: the pieces between the separators; never empty. */
  function Split(s: string, sep: char): (parts: seq<string>)
    ensures |parts| >= 1
  {
    SplitFrom(s, sep, 0)
  }

  /**
   * The first piece runs up to the first separator; with no separator it is
   * all of `s`, otherwise the second piece runs from there to the next one.
   */
  lemma SplitFirstPieces(s: string, sep: char)
    ensures Split(s, sep)[0] == s[..IndexOf(s, sep)]
    ensures IndexOf(s, sep) == |s| ==> Split(s, sep) == [s]
    ensures IndexOf(s, sep) < |s| ==>
      var i := IndexOf(s, sep);
      |Split(s, sep)| > 1 && Split(s, sep)[1] == s[i + 1..IndexFrom(s, sep, i + 1)]
  {
    var i := IndexOf(s, sep);
    if i < |s| {
      assert Split(s, sep) == [s[..i]] + SplitFrom(s, sep, i + 1);
    }
  }

  /** `strings.Join(parts, string(sep))`. */
  function Join(parts: seq<string>, sep: char): (s: string)
    requires |parts| >= 1
  {
    if |parts| == 1 then parts[0] else parts[0] + [sep] + Join(parts[1..], sep)
  }

  lemma JoinCons(first: string, rest: seq<string>, sep: char)
    requires |rest| >= 1
    ensures Join([first] + rest, sep) == first + [sep] + Join(rest, sep)
  {
    assert ([first] + rest)[1..] == rest;
  }

  lemma {:induction false} JoinSplitFrom(s: string, sep: char, from: nat)
    requires from <= |s|
    ensures Join(SplitFrom(s, sep, from), sep) == s[from..]
    decreases |s| - from
  {
    var i := IndexFrom(s, sep, from);
    if i < |s| {
      var rest := SplitFrom(s, sep, i + 1);
      calc {
        Join(SplitFrom(s, sep, from), sep);
        Join([s[from..i]] + rest, sep);
        { JoinCons(s[from..i], rest, sep); }
        s[from..i] + [sep] + Join(rest, sep);
        { JoinSplitFrom(s, sep, i + 1); }
        s[from..i] + [sep] + s[i + 1..];
        { assert s[i] == sep; }
        s[from..];
      }
    }
  }

  /** Joining the pieces of a split gives the string back. */
  lemma JoinSplit(s: string, sep: char)
    ensures Join(Split(s, sep), sep) == s
  {
    JoinSplitFrom(s, sep, 0);
  }

  /** No piece of a split holds the separator. */
  lemma {:induction false} SplitFromPiecesLackSeparator(s: string, sep: char, from: nat)
    requires from <= |s|
    ensures forall k :: 0 <= k < |SplitFrom(s, sep, from)| ==> sep !in SplitFrom(s, sep, from)[k]
    decreases |s| - from
  {
    var i := IndexFrom(s, sep, from);
    IndexFromSkips(s, sep, from);
    if i < |s| {
      SplitFromPiecesLackSeparator(s, sep, i + 1);
      assert forall k :: 0 <= k < i - from ==> s[from..i][k] == s[from + k];
    } else {
      assert forall k :: 0 <= k < |s| - from ==> s[from..][k] == s[from + k];
    }
  }

  /** A scan from `from` stops at `j` when `j` holds the first `c` (or is the end). */
  lemma {:induction false} IndexFromAt(s: string, c: char, from: nat, j: nat)
    requires from <= j <= |s|
    requires j < |s| ==> s[j] == c
    requires forall k :: from <= k < j ==> s[k] != c
    ensures IndexFrom(s, c, from) == j
    decreases j - from
  {
    if from < j {
      IndexFromAt(s, c, from + 1, j);
    }
  }

  /** The first separator in `a + [c] + b`, when `a` has none, is the one after `a`. */
  lemma IndexOfSeparator(a: string, c: char, b: string)
    requires c !in a
    ensures IndexOf(a + [c] + b, c) == |a|
  {
    var s := a + [c] + b;
    assert forall k :: 0 <= k < |a| ==> s[k] == a[k];
    IndexFromAt(s, c, 0, |a|);
  }

  /** Splitting, from `from`, a string whose rest is a join of separator-free pieces gives the pieces. */
  lemma {:induction false} SplitFromJoin(s: string, sep: char, from: nat, parts: seq<string>)
    requires from <= |s|
    requires |parts| >= 1
    requires forall k :: 0 <= k < |parts| ==> sep !in parts[k]
    requires s[from..] == Join(parts, sep)
    ensures SplitFrom(s, sep, from) == parts
    decreases |parts|
  {
    var first := parts[0];
    var j := from + |first|;
    if |parts| == 1 {
      assert forall k :: from <= k < |s| ==> s[k] == first[k - from];
      IndexFromAt(s, sep, from, |s|);
    } else {
      var tail := parts[1..];
      assert s[from..] == first + [sep] + Join(tail, sep);
      assert forall k :: from <= k < j ==> s[k] == first[k - from];
      assert s[j] == sep;
      IndexFromAt(s, sep, from, j);
      assert s[from..j] == first;
      assert s[j + 1..] == Join(tail, sep);
      SplitFromJoin(s, sep, j + 1, tail);
      assert parts == [first] + tail;
    }
  }

  /** Splitting a join of separator-free pieces gives the pieces back. */
  lemma SplitJoin(parts: seq<string>, sep: char)
    requires |parts| >= 1
    requires forall k :: 0 <= k < |parts| ==> sep !in parts[k]
    ensures Split(Join(parts, sep), sep) == parts
  {
    var s := Join(parts, sep);
    assert s[0..] == s;
    SplitFromJoin(s, sep, 0, parts);
  }

  /** The fields of `s[from..]`: its maximal runs of non-space characters. */
  function FieldsFrom(s: string, from: nat): (fs: seq<string>)
    requires from <= |s|
    ensures forall k :: 0 <= k < |fs| ==> fs[k] != [] && NoSpace(fs[k])
    ensures fs == [] <==> forall k :: from <= k < |s| ==> IsSpace(s[k])
    decreases |s| - from
  {
    var a := SkipSpace(s, from);
    if a == |s| then []
    else
      var b := WordEnd(s, a);
      assert NoSpace(s[a..b]) by {
        assert forall k :: 0 <= k < b - a ==> s[a..b][k] == s[a + k];
      }
      [s[a..b]] + FieldsFrom(s, b)
  }

  /** `strings.Fields`: the maximal runs of non-space characters, in order. */
  function Fields(s: string): (fs: seq<string>)
    ensures forall k :: 0 <= k < |fs| ==> fs[k] != [] && NoSpace(fs[k])
    ensures fs == [] <==> AllSpace(s)
  {
    FieldsFrom(s, 0)
  }

  /** Skipping a run of white space stops at the first non-space character. */
  lemma {:induction false} SkipSpaceRun(s: string, from: nat, hi: nat)
    requires from <= hi <= |s|
    requires forall k :: from <= k < hi ==> IsSpace(s[k])
    requires hi == |s| || !IsSpace(s[hi])
    ensures SkipSpace(s, from) == hi
    decreases hi - from
  {
    if from < hi {
      SkipSpaceRun(s, from + 1, hi);
    }
  }

  /** A word ends at the first white-space character after it. */
  lemma {:induction false} WordEndRun(s: string, from: nat, hi: nat)
    requires from <= hi <= |s|
    requires forall k :: from <= k < hi ==> !IsSpace(s[k])
    requires hi == |s| || IsSpace(s[hi])
    ensures WordEnd(s, from) == hi
    decreases hi - from
  {
    if from < hi {
      WordEndRun(s, from + 1, hi);
    }
  }

  /** A word preceded by white space only is the next field. */
  lemma FieldsFromWord(s: string, from: nat, a: nat, b: nat)
    requires from <= a < b <= |s|
    requires forall k :: from <= k < a ==> IsSpace(s[k])
    requires forall k :: a <= k < b ==> !IsSpace(s[k])
    requires b == |s| || IsSpace(s[b])
    ensures FieldsFrom(s, from) == [s[a..b]] + FieldsFrom(s, b)
  {
    SkipSpaceRun(s, from, a);
    WordEndRun(s, a, b);
  }

  /** `strings.HasPrefix`. */
  predicate HasPrefix(s: string, prefix: string) {
    |prefix| <= |s| && s[..|prefix|] == prefix
  }

  /** A string has a prefix exactly when it is that prefix followed by the rest. */
  lemma HasPrefixAppend(prefix: string, rest: string, s: string)
    ensures HasPrefix(prefix + rest, prefix)
    ensures HasPrefix(s, prefix) ==> s == prefix + s[|prefix|..]
  {
    assert (prefix + rest)[..|prefix|] == prefix;
    if HasPrefix(s, prefix) {
      assert s == s[..|prefix|] + s[|prefix|..];
    }
  }

  /** `strings.TrimSuffix`: `s` without `suffix` when `s` ends with it, `s` otherwise. */
  function TrimSuffix(s: string, suffix: string): (r: string)
    ensures |suffix| <= |s| && s[|s| - |suffix|..] == suffix ==> r + suffix == s
    ensures !(|suffix| <= |s| && s[|s| - |suffix|..] == suffix) ==> r == s
  {
    if |suffix| <= |s| && s[|s| - |suffix|..] == suffix then s[..|s| - |suffix|] else s
  }

  predicate IsUpperAscii(c: char) {
    'A' <= c <= 'Z'
  }

  /** `unicode.ToLower` restricted to ASCII letters. */
  function LowerChar(c: char): (d: char)
    ensures !IsUpperAscii(d)
    ensures IsUpperAscii(c) ==> 'a' <= d <= 'z' && d as int == c as int + 32
    ensures !IsUpperAscii(c) ==> d == c
  {
    if IsUpperAscii(c) then (c as int + 32) as char else c
  }

  /** `strings.ToLower` on ASCII letters: every other character is kept. */
  function ToLower(s: string): (r: string)
    ensures |r| == |s|
    ensures forall k :: 0 <= k < |r| ==> !IsUpperAscii(r[k])
    ensures forall k :: 0 <= k < |s| && !IsUpperAscii(s[k]) ==> r[k] == s[k]
    ensures forall k :: 0 <= k < |s| ==> r[k] == LowerChar(s[k])
  {
    if s == [] then [] else [LowerChar(s[0])] + ToLower(s[1..])
  }

  /** Lower-casing twice is lower-casing once. */
  lemma {:induction false} ToLowerIdempotent(s: string)
    ensures ToLower(ToLower(s)) == ToLower(s)
  {
    if s != [] {
      ToLowerIdempotent(s[1..]);
    }
  }
}

=== FILE: wrappers.dfy ===
/** Failure-carrying results shared by the generator's modules. */
module Wrappers {

  datatype Option<+T> = None | Some(value: T)

  datatype Result<+T, +E> = Success(value: T) | Failure(error: E)

  /** The errors the generator reports; each names the Go error it stands for. */
  datatype Error =
    | PackageNameNotFound     // errors.New("Package name not found")
    | ReadEnums               // "Error read enums: ..." (spec file cannot be opened or read)
    | ReadTemplate            // "Error read file: ..." (template cannot be read)
    | EmptyMemberList         // enums[len(enums)-1] with no enums: an index-out-of-range panic
    | RenderFailed(message: string)  // "Error Mustache parse/render: ..."
    | WriteFailed(fileName: string)  // "Error writeStringToFile: ..."
}
